=== FILE: README.md ===
# Library lending and room reservation core, in Dafny

This project models the three pieces of the library system that carry state logic.

- **The book lending ledger.** This is the transactions service of the backend. A transaction is BORROW or RETURN. Borrowing a book takes one copy off its `quantity`, and is refused when no copy is left. Updating a transaction from BORROW to RETURN puts the copy back. A RETURN sent to a transaction that is already returned puts nothing back.
- **The room status state machine.** This is the reservations service of the backend. A room is `free`, `reserved` or `in use`. A reservation of type `reserve`, `return` or `in use` moves it along free → reserved → in use → free, and reserved → free. A create request whose move the room's status does not allow is refused with BadRequest. An update refuses a `return` or `in use` move the same way, but it accepts `reserve`, or no type at all, and leaves the room's status as it was.
- **The availability grid.** This is the data logic of the admin room-timeslot table. Records are grouped by room, rooms are sorted by room number, and each (room, timeslot) cell shows a status or `-`.

Each service has two layers:

- **A value model.** Module `Ledger` covers transactions and module `Rooms` covers reservations. The state is a `Store` value that holds two maps. Each service call is a function from the old store to an `Outcome`: the result or the exception, plus the new store. The contracts and lemmas about the service's promises are stated on these functions. This includes properties of whole call sequences.
- **A service class.** These are `Transactions.TransactionsService` and `Reservations.ReservationsService`. Each holds the two maps as fields that its methods update in place, step by step as the source does. Each method is proved to produce exactly the `Outcome` of its function.

The service classes model the code as written. Where the code is wrong, the "## Findings" section lists a corrected function beside the as-written one.

Persistence is modelled as in-memory maps, and exceptions as an `Error` datatype. The store's choices become parameters:

- the identifier of a new record;
- the time of the call, which is the default for the borrow and reserve dates;
- whether the final transaction write fails with a duplicate-key error.

Dates are opaque values that are carried through unchanged.

## Model

| member | source | states |
|---|---|---|
| Ledger.Create | backend/library/src/transactions/transactions.service.ts:31-70 | A status other than BORROW is refused with BadRequest, an unknown book with NotFound, and a book with quantity ≤ 0 with Conflict. Each refusal holds under its exact condition and changes nothing. A borrow lowers that book's quantity by exactly 1, never below 0, and adds exactly one transaction. The record takes the request's user, book, status and dates. The borrow date defaults to the time of the call. Nothing else changes. |
| Ledger.Update | backend/library/src/transactions/transactions.service.ts:91-148 | BORROW sent with a return date is refused with Conflict before anything is read. A missing id gives NotFound. A RETURN whose stored book no longer exists gives NotFound and writes nothing. A duplicate-key refusal of the final write gives Conflict. The quantity changes only when RETURN meets a stored BORROW whose book exists, and then by exactly +1 on the stored record's book. On success the record is overwritten with the request's fields. The only refused call that writes anything is the duplicate-key Conflict, which leaves the already-saved book incremented. No quantity goes negative. |
| Ledger.Remove | backend/library/src/transactions/transactions.service.ts:150-160 | Deletes exactly the named transaction and returns it, or fails with NotFound and changes nothing. It never changes a quantity. |
| Ledger.ReturnIsIdempotent | backend/library/src/transactions/transactions.service.ts:117-139 | Sending the same RETURN update twice has exactly the effect of sending it once, so the copy comes back once. |
| Ledger.RunKeepsStock | backend/library/src/transactions/transactions.service.ts:49-59 | After any sequence of create, update and remove calls, no book's quantity has gone negative (if none was negative before), and no book was added or dropped. |
| Ledger.BorrowsLeaveStock | backend/library/src/transactions/transactions.service.ts:50-55 | With n copies and k borrow requests in a row, the book ends with max(0, n − k) copies, and every other book is unchanged. |
| Ledger.BorrowsExhaustStock | backend/library/src/transactions/transactions.service.ts:50-55 | With n copies and k borrow requests in a row, exactly the first n succeed. Every later request gets Conflict, and max(0, n − k) copies remain. |
| Ledger.SingleCopyScenario | backend/library/src/transactions/transactions.service.ts:50-133 | With one copy: A borrows (0 left), B is refused with Conflict, A returns (1 left), and then B's borrow succeeds (0 left). |
| Ledger.RevertedReturnRestocksTwice | backend/library/src/transactions/transactions.service.ts:117-139 | As written, RETURN, then BORROW, then RETURN on one transaction puts its copy back twice. |
| Ledger.UpdateGuarded | backend/library/src/transactions/transactions.service.ts:117-139 | Corrected update. It refuses with Conflict, writing nothing, exactly the call that sends a returned transaction back to BORROW. On every other call it gives the same result as `Update`. A refused call writes nothing, and a returned transaction stays returned and never changes a quantity. |
| Ledger.GuardedReturnRestocksAtMostOnce | backend/library/src/transactions/transactions.service.ts:117-133 | With the corrected update, any sequence of updates to one transaction puts a copy back at most once, and only if the transaction was on loan. |
| Transactions.TransactionsService.Create | backend/library/src/transactions/transactions.service.ts:31-70 | The in-place borrow produces exactly `Ledger.Create`'s result and new maps, and keeps every quantity non-negative. |
| Transactions.TransactionsService.Update | backend/library/src/transactions/transactions.service.ts:91-148 | The in-place update saves the book before it writes the record, and produces exactly `Ledger.Update`'s result and new maps. |
| Transactions.TransactionsService.Remove | backend/library/src/transactions/transactions.service.ts:150-160 | The in-place delete produces exactly `Ledger.Remove`'s result and new maps. The quantities are unchanged. |
| Rooms.Transition | backend/library/src/reservations/reservations.service.ts:38-66 | The create guard admits a request exactly when the state machine allows the move from the room's status to the status the type asks for (reserve → reserved, return → free, in use → in use). The result is then that status. |
| Rooms.GuardsAdmitExactlyTheStateMachine | backend/library/src/reservations/reservations.service.ts:38-66 | A move is allowed (free → reserved, reserved → in use, reserved or in use → free) exactly when some reservation type's guard admits it. |
| Rooms.UpdateTransition | backend/library/src/reservations/reservations.service.ts:119-139 | Update checks `return` and `in use` exactly as create does. Any other type, `reserve` included, or no type at all, leaves the room's status as it was. |
| Rooms.Create | backend/library/src/reservations/reservations.service.ts:27-74 | An unknown room gives NotFound. A request the room's status does not admit gives BadRequest, and the room is unchanged. Success comes exactly when the move is allowed and a due time is given. On success the room takes the status the type asks for (reserved, free or in use), and exactly one reservation is added. That reservation takes the request's room, user, type and times. The reserve time defaults to the time of the call. At most the named room moves, and only by an allowed transition. A request with an allowed move but no due time is refused by the store with ValidationFailed. The room has already moved and no reservation is added. |
| Rooms.Update | backend/library/src/reservations/reservations.service.ts:95-150 | A missing reservation id, or a room id in the body that is missing or unknown, gives NotFound. A `return` or `in use` move the room's status does not allow gives BadRequest. Every refusal changes nothing. Success applies `UpdateTransition` to the body's room and overwrites the reservation with the request's fields. Every room keeps its status or takes one allowed transition. |
| Rooms.Remove | backend/library/src/reservations/reservations.service.ts:152-162 | Deletes exactly the named reservation and returns it, or fails with NotFound and changes nothing. Room statuses are untouched. |
| Rooms.NoDoubleReservation | backend/library/src/reservations/reservations.service.ts:39-44 | After a successful `reserve` of a room, a second `reserve` of the same room is refused with BadRequest and changes nothing. |
| Rooms.History | backend/library/src/reservations/reservations.service.ts:27-150 | In any sequence of calls, each room's successive statuses follow the state machine: each step keeps the status or takes one allowed transition. |
| Rooms.NoShortcutToInUse | backend/library/src/reservations/reservations.service.ts:56-63 | In any sequence of statuses that follows the state machine, free reaches in use only by way of reserved. |
| Rooms.RoomReachesInUseOnlyThroughReserved | backend/library/src/reservations/reservations.service.ts:56-63 | Whatever calls are made, a free room that ends in use was reserved at some point in between. |
| Rooms.MissingDueTimeStrandsRoom | backend/library/src/reservations/reservations.service.ts:68-73 | As written, a `reserve` of a free room without a due time fails after the room was saved. The room is then reserved, and no reservation records it. |
| Rooms.CreateValidated | backend/library/src/reservations/reservations.service.ts:68-73 | Corrected create. A request without a due time is refused with BadRequest before anything is written. Every other request is exactly the original `Create`. Any refusal writes nothing. A room's status changes only together with a new reservation for that room and type. |
| Reservations.ReservationsService.Create | backend/library/src/reservations/reservations.service.ts:27-74 | The in-place create saves the room before the record, and produces exactly `Rooms.Create`'s result and new maps. Room statuses move only along the state machine. |
| Reservations.ReservationsService.Update | backend/library/src/reservations/reservations.service.ts:95-150 | The in-place update produces exactly `Rooms.Update`'s result and new maps. Room statuses move only along the state machine. |
| Reservations.ReservationsService.Remove | backend/library/src/reservations/reservations.service.ts:152-162 | The in-place delete produces exactly `Rooms.Remove`'s result and new maps. Room statuses are unchanged. |
| RoomTimeSlotTable.GroupByRoom | frontend/admin/apps/library/src/components/RoomTimeSlot/RoomTimeSlotTable.tsx:21-28 | The loop over the records gives one bucket per room id that occurs. Every room's bucket, empty for a room with no records, is exactly that room's records in input order. |
| RoomTimeSlotTable.RecordsOfPartitions | frontend/admin/apps/library/src/components/RoomTimeSlot/RoomTimeSlotTable.tsx:21-28 | Every record lands in the bucket of its own room id as often as it occurs in the input, and in no other bucket. |
| RoomTimeSlotTable.RecordsOfConcat | frontend/admin/apps/library/src/components/RoomTimeSlot/RoomTimeSlotTable.tsx:21-28 | Buckets keep input order: in every bucket, the records of an earlier part of the input come before those of a later part. |
| RoomTimeSlotTable.Insert | frontend/admin/apps/library/src/components/RoomTimeSlot/RoomTimeSlotTable.tsx:31 | Inserting a room into rooms sorted by number keeps them sorted and adds exactly that room, as a permutation. |
| RoomTimeSlotTable.InsertNumbered | frontend/admin/apps/library/src/components/RoomTimeSlot/RoomTimeSlotTable.tsx:31 | Insertion is stable: the inserted room goes directly ahead of the rooms with the same number, and their order is kept. |
| RoomTimeSlotTable.SortRooms | frontend/admin/apps/library/src/components/RoomTimeSlot/RoomTimeSlotTable.tsx:31 | The row order is ascending by room number and is a permutation of the rooms. It is stable: rooms with equal numbers keep their input order. |
| RoomTimeSlotTable.FirstInColumn | frontend/admin/apps/library/src/components/RoomTimeSlot/RoomTimeSlotTable.tsx:57-62 | Gives the position of the first record whose timeslot has the column's start and end, or the length when no record has. |
| RoomTimeSlotTable.EditTarget | frontend/admin/apps/library/src/components/RoomTimeSlot/RoomTimeSlotTable.tsx:67-72 | A click edits nothing exactly when no record belongs in the cell, and such a cell shows `-`. Otherwise it edits the first record in the column, the same record whose status the cell shows. |
| RoomTimeSlotTable.Grid | frontend/admin/apps/library/src/components/RoomTimeSlot/RoomTimeSlotTable.tsx:49-80 | The table has one row per room and one column per timeslot. |
| RoomTimeSlotTable.CellResolvesToFirstRecordOfCell | frontend/admin/apps/library/src/components/RoomTimeSlot/RoomTimeSlotTable.tsx:50-62 | Looking a cell up in its room's bucket finds the first record of the whole input with that room id and that start and end. It finds nothing exactly when no such record exists. |
| RoomTimeSlotTable.RoomWithoutRecordsShowsDashes | frontend/admin/apps/library/src/components/RoomTimeSlot/RoomTimeSlotTable.tsx:50-74 | A room with no records has every cell of its row showing `-`. |
| RoomTimeSlotTable.GridShowsDashWhenNoRecordFits | frontend/admin/apps/library/src/components/RoomTimeSlot/RoomTimeSlotTable.tsx:56-74 | A cell that none of its room's records fits shows `-`, even when the room has records in other columns. |
| RoomTimeSlotTable.GridShowsFirstRecordOfCell | frontend/admin/apps/library/src/components/RoomTimeSlot/RoomTimeSlotTable.tsx:56-75 | Each cell shows the status of the first input record of its room and timeslot, or `-` when that status is empty. |

Two branches of the source cannot be reached, so the model has no counterpart for them:

- `transactions.service.ts:56-59` raises the quantity when a RETURN transaction is created. The check at line 35 has already refused every status other than BORROW.
- `reservations.service.ts:64-66` rejects any other reservation type. Input validation (`create-reservation.dto.ts:22`) admits only the three types, so `ReservationType` has only those three values.

## Findings

| source | as written | input that shows it | evidently intended | confidence | as-written member | corrected member |
|---|---|---|---|---|---|---|
| backend/library/src/transactions/transactions.service.ts:117-139 | `update` adds a copy whenever RETURN meets a stored BORROW. It also accepts BORROW on a returned transaction without taking the copy out again. | Book `b` has quantity 0 and transaction `t` is on loan. Updates `{status: RETURN}`, then `{status: BORROW}`, then `{status: RETURN}` leave `b` with quantity 2, although only one copy was ever lent. | A transaction puts its copy back at most once. A returned transaction cannot go back on loan, and a refused call writes nothing. | medium; not executed | Ledger.RevertedReturnRestocksTwice | Ledger.UpdateGuarded, with Ledger.GuardedReturnRestocksAtMostOnce |
| backend/library/src/reservations/reservations.service.ts:68-73 | `create` saves the room's new status before it saves the reservation. The reservation schema requires `dueTime` (`reservation.schema.ts:31`), but the create request type makes it optional. | A free room gets `{type: reserve}` with no `dueTime`. The call fails, the room stays `reserved`, and no reservation holds it. This assumes the room's save accepts the service's three statuses, as the model does. The room schema's READY/NOT READY enum (`room.schema.ts:21`) would make that save fail first. | A refused create leaves the room as it was. | medium; not executed | Rooms.MissingDueTimeStrandsRoom | Rooms.CreateValidated |

## Left out

- Framework and persistence machinery is not modelled: the dependency-injected models, `findById`, `save`, `findByIdAndUpdate`, `lean`, and the error message texts. The stores are maps and the exceptions are `Error` values.
- Concurrency is not modelled. The source reads, checks and then writes without locking, so two concurrent borrows can race. Each call is modelled as one atomic step.
- `findAll` and `findOne` in both services are not modelled. They only read.
- In `update`, both services check that the id exists and then read the record again, each time throwing NotFound. Calls are atomic here, so the two checks are one.
- Only two store failures are modelled. One is the duplicate-key error on the final write of transaction `update`. The other is the store refusing a reservation without `dueTime` in reservation `create`, which gives `ValidationFailed`. Any other store failure is not modelled, including the other errors that transaction `update` rethrows (`transactions.service.ts:146`).
- `quantity` is an unbounded integer. The `(book.quantity || 0)` fallback for a missing or NaN quantity is not modelled, and neither is the limited precision of JavaScript numbers.
- In an update body, an explicit null is modelled only for a transaction's `dueDate` and `returnDate` and for the three reservation dates. For every other field it is read as a field left out. That includes a transaction's `borrowDate`: the store would accept `{borrowDate: null}` and clear the stored date, but the model keeps the borrow date.
- New record identifiers and `Date.now` come from the store and the clock. They are parameters.
- The room schema's status enum is READY/NOT READY (`room.schema.ts:21`). The model uses the service's three statuses (`create-room.dto.ts:19`).
- Renew requests, the pending/confirmed/cancelled reservation flow, timeslot-scoped statuses and timed reversion are not modelled. None of them has backend code here.
- The inventory invariant "quantity equals the starting stock minus the active borrows" is not proved. The code as written does not keep it:
  - `remove` deletes a BORROW record without restoring the copy;
  - an update can change a borrowed record's `book`;
  - the finding above breaks it too.
- The table's rendering is not modelled: headers, the room label, styles and the unused `onDelete`. Sorting works on a copy, so the input is never reordered. In this model sequences are values, so that property holds trivially.

=== FILE: ledger.dfy ===
/**
 * The book lending ledger of the library backend, as values: each book's
 * loanable-copy count, the borrow/return transaction records, and the effect
 * of each call of the transactions service on them. The service class in
 * transactions.dfy is proved to have exactly these effects.
 */
module Ledger {
  import opened Wrappers

  type BookId = string
  type TransactionId = string
  type UserId = string
  /** A date is carried through unchanged; nothing here computes with it. */
  type Date = string

  datatype Status = Borrow | Return

  /** The exceptions the service raises (HTTP 400, 404 and 409). */
  datatype Error = BadRequest | NotFound | Conflict

  datatype Transaction = Transaction(
    user: UserId,
    book: BookId,
    status: Status,
    dueDate: Option<Date>,
    borrowDate: Date,
    returnDate: Option<Date>)

  /** The body of a create request; input validation admits only the two statuses. */
  datatype CreateRequest = CreateRequest(
    user: UserId,
    book: BookId,
    status: Status,
    dueDate: Option<Date>,
    borrowDate: Option<Date>,
    returnDate: Option<Date>)

  /**
   * The body of an update request. `None` is a field the body leaves out; the
   * due and return dates can also be sent as an explicit null, `Some(None)`.
   * An explicit null borrow date is read as left out.
   */
  datatype UpdateRequest = UpdateRequest(
    user: Option<UserId>,
    book: Option<BookId>,
    status: Option<Status>,
    dueDate: Option<Option<Date>>,
    borrowDate: Option<Date>,
    returnDate: Option<Option<Date>>)

  /** The persisted state the service reads and writes: book quantities and transaction records. */
  datatype Store = Store(quantity: map<BookId, int>, transactions: map<TransactionId, Transaction>)

  /** What a call returns or raises, and the store after it. */
  datatype Outcome = Outcome(result: Result<Transaction, Error>, after: Store)

  /** No book has a negative number of copies. */
  ghost predicate NonNegative(s: Store) {
    forall b :: b in s.quantity ==> s.quantity[b] >= 0
  }

  /** The record the store creates from a request: the borrow date defaults to the time of the call. */
  function NewRecord(req: CreateRequest, now: Date): Transaction {
    Transaction(req.user, req.book, req.status, req.dueDate, req.borrowDate.GetOr(now), req.returnDate)
  }

  /**
   * Borrowing a book. `id` is the identifier the store gives the new record,
   * and `now` the time of the call.
   */
  function Create(s: Store, req: CreateRequest, id: TransactionId, now: Date): (o: Outcome)
    requires id !in s.transactions
    // a refused call changes nothing
    ensures o.result.Err? ==> o.after == s
    // the three refusals, each under its exact condition
    ensures o.result == Err(BadRequest) <==> req.status != Borrow
    ensures o.result == Err(NotFound) <==> req.status == Borrow && req.book !in s.quantity
    ensures o.result == Err(Conflict) <==>
              req.status == Borrow && req.book in s.quantity && s.quantity[req.book] <= 0
    // a borrow takes exactly one copy of that book, never the last one it does not have,
    // and records exactly one new transaction
    ensures o.result.Ok? ==>
              && o.result.value.status == Borrow
              && o.result.value.book == req.book
              && o.result.value.user == req.user
              && o.result.value.dueDate == req.dueDate
              && o.result.value.borrowDate == req.borrowDate.GetOr(now)
              && o.result.value.returnDate == req.returnDate
              && o.result.value == NewRecord(req, now)
              && req.book in s.quantity
              && o.after.quantity == s.quantity[req.book := s.quantity[req.book] - 1]
              && o.after.quantity[req.book] >= 0
              && o.after.transactions == s.transactions[id := o.result.value]
              && |o.after.transactions| == |s.transactions| + 1
    ensures NonNegative(s) ==> NonNegative(o.after)
  {
    if req.status != Borrow then Outcome(Err(BadRequest), s)
    else if req.book !in s.quantity then Outcome(Err(NotFound), s)
    else if s.quantity[req.book] <= 0 then Outcome(Err(Conflict), s)
    else
      var t := NewRecord(req, now);
      Outcome(Ok(t), Store(s.quantity[req.book := s.quantity[req.book] - 1], s.transactions[id := t]))
  }

  /** The update refused before anything is read: a BORROW status together with a return date. */
  predicate ReturnDateOnBorrow(req: UpdateRequest) {
    req.status == Some(Borrow) && req.returnDate.Some? && req.returnDate.value.Some?
  }

  /** The update that puts a copy back: it asks for RETURN and the stored record is still BORROW. */
  predicate Restocks(current: Transaction, req: UpdateRequest) {
    req.status == Some(Return) && current.status == Borrow
  }

  /** The record after a partial update: each field the request gives replaces the stored one. */
  function Merge(t: Transaction, req: UpdateRequest): Transaction {
    Transaction(
      req.user.GetOr(t.user),
      req.book.GetOr(t.book),
      req.status.GetOr(t.status),
      req.dueDate.GetOr(t.dueDate),
      req.borrowDate.GetOr(t.borrowDate),
      req.returnDate.GetOr(t.returnDate))
  }

  /**
   * Updating a transaction. `storeConflict` is the store's answer to the final
   * write: true when it fails with a duplicate-key error.
   */
  function Update(s: Store, id: TransactionId, req: UpdateRequest, storeConflict: bool): (o: Outcome)
    // refused before any record is read
    ensures ReturnDateOnBorrow(req) ==> o == Outcome(Err(Conflict), s)
    ensures !ReturnDateOnBorrow(req) && id !in s.transactions ==> o == Outcome(Err(NotFound), s)
    // a restock whose book is gone is refused before anything is written
    ensures (&& !ReturnDateOnBorrow(req)
             && id in s.transactions
             && Restocks(s.transactions[id], req)
             && s.transactions[id].book !in s.quantity) ==>
              o == Outcome(Err(NotFound), s)
    // a duplicate-key refusal of the final write surfaces as Conflict
    ensures (&& storeConflict
             && !ReturnDateOnBorrow(req)
             && id in s.transactions
             && (Restocks(s.transactions[id], req) ==> s.transactions[id].book in s.quantity)) ==>
              o.result == Err(Conflict)
    // when the call succeeds, and what it writes then
    ensures o.result.Ok? <==>
              && !ReturnDateOnBorrow(req)
              && id in s.transactions
              && (Restocks(s.transactions[id], req) ==> s.transactions[id].book in s.quantity)
              && !storeConflict
    ensures o.result.Ok? ==>
              && o.result.value == Merge(s.transactions[id], req)
              && o.after.transactions == s.transactions[id := o.result.value]
    ensures o.result.Err? ==> o.after.transactions == s.transactions
    // the quantity moves only on a real BORROW -> RETURN transition, by exactly one,
    // and on the book the stored record names
    ensures o.after.quantity != s.quantity <==>
              && !ReturnDateOnBorrow(req)
              && id in s.transactions
              && Restocks(s.transactions[id], req)
              && s.transactions[id].book in s.quantity
    ensures o.after.quantity != s.quantity ==>
              var b := s.transactions[id].book;
              o.after.quantity == s.quantity[b := s.quantity[b] + 1]
    // the one refused call that writes anything: the book was saved before the store refused the record
    ensures o.result.Err? && o.after != s ==> o.result == Err(Conflict) && storeConflict
    ensures NonNegative(s) ==> NonNegative(o.after)
  {
    if ReturnDateOnBorrow(req) then Outcome(Err(Conflict), s)
    else if id !in s.transactions then Outcome(Err(NotFound), s)
    else
      var current := s.transactions[id];
      if Restocks(current, req) && current.book !in s.quantity then Outcome(Err(NotFound), s)
      else
        var b := current.book;
        var quantity := if Restocks(current, req) then s.quantity[b := s.quantity[b] + 1] else s.quantity;
        assert Restocks(current, req) ==> quantity[b] != s.quantity[b];
        if storeConflict then Outcome(Err(Conflict), Store(quantity, s.transactions))
        else
          var t := Merge(current, req);
          Outcome(Ok(t), Store(quantity, s.transactions[id := t]))
  }

  /** Deleting a transaction record. */
  function Remove(s: Store, id: TransactionId): (o: Outcome)
    ensures o.after.quantity == s.quantity
    ensures o.result.Ok? <==> id in s.transactions
    ensures o.result.Ok? ==>
              o.result.value == s.transactions[id] && o.after.transactions == s.transactions - {id}
    ensures o.result.Err? ==> o == Outcome(Err(NotFound), s)
  {
    if id in s.transactions then Outcome(Ok(s.transactions[id]), Store(s.quantity, s.transactions - {id}))
    else Outcome(Err(NotFound), s)
  }

  /** Returning a transaction twice has the effect of returning it once: the copy comes back once. */
  lemma ReturnIsIdempotent(s: Store, id: TransactionId, req: UpdateRequest)
    requires req.status == Some(Return)
    ensures var once := Update(s, id, req, false);
            Update(once.after, id, req, false) == once
  {
    var once := Update(s, id, req, false);
    if once.result.Ok? {
      var t := once.result.value;
      assert t.status == Return;
      assert Merge(t, req) == t;
    }
  }

  // ---------------------------------------------------------------------------
  // Sequences of calls

  datatype Call =
    | CreateCall(req: CreateRequest, id: TransactionId, now: Date)
    | UpdateCall(id: TransactionId, patch: UpdateRequest, storeConflict: bool)
    | RemoveCall(id: TransactionId)

  /** One call; the store never issues an identifier it already holds, so such a create is no call at all. */
  function Step(s: Store, c: Call): Store {
    match c
    case CreateCall(req, id, now) => if id in s.transactions then s else Create(s, req, id, now).after
    case UpdateCall(id, req, storeConflict) => Update(s, id, req, storeConflict).after
    case RemoveCall(id) => Remove(s, id).after
  }

  function Run(s: Store, calls: seq<Call>): Store
    decreases |calls|
  {
    if calls == [] then s else Run(Step(s, calls[0]), calls[1..])
  }

  /** No sequence of calls drives any book's quantity below zero, and none adds or drops a book. */
  lemma {:induction false} RunKeepsStock(s: Store, calls: seq<Call>)
    ensures Run(s, calls).quantity.Keys == s.quantity.Keys
    ensures NonNegative(s) ==> NonNegative(Run(s, calls))
    decreases |calls|
  {
    if calls != [] {
      var next := Step(s, calls[0]);
      assert next.quantity.Keys == s.quantity.Keys;
      RunKeepsStock(next, calls[1..]);
    }
  }

  /** Identifiers that the store has not issued yet, all distinct. */
  ghost predicate FreshIds(s: Store, ids: seq<TransactionId>) {
    && (forall i :: 0 <= i < |ids| ==> ids[i] !in s.transactions)
    && (forall i, j :: 0 <= i < j < |ids| ==> ids[i] != ids[j])
  }

  /** The same borrow request made once per identifier, one call after another: the results and the final store. */
  function Borrows(s: Store, req: CreateRequest, ids: seq<TransactionId>, now: Date)
    : (r: (seq<Result<Transaction, Error>>, Store))
    requires FreshIds(s, ids)
    ensures |r.0| == |ids|
    ensures r.1.quantity.Keys == s.quantity.Keys
    decreases |ids|
  {
    if ids == [] then ([], s)
    else
      var o := Create(s, req, ids[0], now);
      var rest := Borrows(o.after, req, ids[1..], now);
      ([o.result] + rest.0, rest.1)
  }

  /** One borrow of a book that is not over-drawn: it succeeds exactly when a copy is left. */
  lemma BorrowStep(s: Store, req: CreateRequest, id: TransactionId, now: Date)
    requires id !in s.transactions
    requires req.status == Borrow && req.book in s.quantity && s.quantity[req.book] >= 0
    ensures var o := Create(s, req, id, now);
            var n := s.quantity[req.book];
            && (o.result.Ok? <==> n > 0)
            && (n > 0 ==> o.after.quantity == s.quantity[req.book := n - 1] && o.after.transactions.Keys == s.transactions.Keys + {id})
            && (n <= 0 ==> o.result == Err(Conflict) && o.after == s)
  {
  }

  /** The identifiers after the first stay fresh once the first has been used. */
  lemma FreshTail(s: Store, ids: seq<TransactionId>, after: Store)
    requires FreshIds(s, ids) && ids != []
    requires after.transactions.Keys <= s.transactions.Keys + {ids[0]}
    ensures FreshIds(after, ids[1..])
  {
    forall i | 0 <= i < |ids[1..]| ensures ids[1..][i] !in after.transactions {
      assert ids[1..][i] == ids[i + 1];
    }
  }

  /** With n copies on the shelf, k borrows in a row leave max(0, n - k) copies. */
  lemma {:induction false} BorrowsLeaveStock(s: Store, req: CreateRequest, ids: seq<TransactionId>, now: Date)
    requires FreshIds(s, ids)
    requires req.status == Borrow && req.book in s.quantity && s.quantity[req.book] >= 0
    ensures var n := s.quantity[req.book];
            Borrows(s, req, ids, now).1.quantity == s.quantity[req.book := if n <= |ids| then 0 else n - |ids|]
    decreases |ids|
  {
    if ids != [] {
      var o := Create(s, req, ids[0], now);
      BorrowStep(s, req, ids[0], now);
      FreshTail(s, ids, o.after);
      BorrowsLeaveStock(o.after, req, ids[1..], now);
      assert Borrows(s, req, ids, now).1 == Borrows(o.after, req, ids[1..], now).1;
      var n := s.quantity[req.book];
      var left := if n <= |ids| then 0 else n - |ids|;
      if n > 0 {
        assert o.after.quantity[req.book := left] == s.quantity[req.book := left];
      }
    }
  }

  /**
   * With n copies on the shelf, the first n borrows succeed and every later one
   * is refused with Conflict; the shelf ends with max(0, n - k) copies.
   */
  lemma {:induction false} BorrowsExhaustStock(s: Store, req: CreateRequest, ids: seq<TransactionId>, now: Date)
    requires FreshIds(s, ids)
    requires req.status == Borrow && req.book in s.quantity && s.quantity[req.book] >= 0
    ensures var r := Borrows(s, req, ids, now);
            var n := s.quantity[req.book];
            && (forall i :: 0 <= i < |ids| ==> (r.0[i].Ok? <==> i < n))
            && (forall i :: n <= i < |ids| ==> r.0[i] == Err(Conflict))
            && r.1.quantity == s.quantity[req.book := if n <= |ids| then 0 else n - |ids|]
    decreases |ids|
  {
    BorrowsLeaveStock(s, req, ids, now);
    if ids != [] {
      var o := Create(s, req, ids[0], now);
      BorrowStep(s, req, ids[0], now);
      FreshTail(s, ids, o.after);
      BorrowsExhaustStock(o.after, req, ids[1..], now);
      var r := Borrows(s, req, ids, now).0;
      var rest := Borrows(o.after, req, ids[1..], now).0;
      assert r == [o.result] + rest;
      var n := s.quantity[req.book];
      forall i | 0 <= i < |ids| ensures (r[i].Ok? <==> i < n) && (n <= i ==> r[i] == Err(Conflict)) {
        if i > 0 {
          assert r[i] == rest[i - 1];
        }
      }
    }
  }

  /** Scenario: one copy; A borrows, B is refused, A returns, and B's borrow then succeeds. */
  lemma SingleCopyScenario(s: Store, a: CreateRequest, b: CreateRequest, now: Date)
    requires s.transactions == map[]
    requires a.status == Borrow && b.status == Borrow && a.book == b.book
    requires a.book in s.quantity && s.quantity[a.book] == 1
    ensures var afterA := Create(s, a, "tA", now);
            var refusedB := Create(afterA.after, b, "tB", now);
            var returnA := Update(refusedB.after, "tA", UpdateRequest(None, None, Some(Return), None, None, None), false);
            var afterB := Create(returnA.after, b, "tB", now);
            && afterA.result.Ok? && afterA.after.quantity[a.book] == 0
            && refusedB.result == Err(Conflict)
            && returnA.result.Ok? && returnA.after.quantity[a.book] == 1
            && afterB.result.Ok? && afterB.after.quantity[a.book] == 0
  {
    var afterA := Create(s, a, "tA", now);
    assert "tA" in afterA.after.transactions;
    var refusedB := Create(afterA.after, b, "tB", now);
    var patch := UpdateRequest(None, None, Some(Return), None, None, None);
    var returnA := Update(refusedB.after, "tA", patch, false);
    assert Restocks(refusedB.after.transactions["tA"], patch);
  }

  // ---------------------------------------------------------------------------
  // Counting the copies an update sequence puts back on one transaction

  /** One update of a transaction: its body and the store's answer to the final write. */
  datatype Patch = Patch(req: UpdateRequest, storeConflict: bool)

  /**
   * A sequence of updates of transaction `id`, made with `Update` (as the
   * service does) or with `UpdateGuarded`: the final store, and how many of the
   * calls put a copy back on the shelf.
   */
  function Patched(s: Store, id: TransactionId, patches: seq<Patch>, guarded: bool): (r: (Store, nat))
    ensures r.0.quantity.Keys == s.quantity.Keys
    decreases |patches|
  {
    if patches == [] then (s, 0)
    else
      var p := patches[0];
      var o := if guarded then UpdateGuarded(s, id, p.req, p.storeConflict) else Update(s, id, p.req, p.storeConflict);
      var rest := Patched(o.after, id, patches[1..], guarded);
      (rest.0, rest.1 + if o.after.quantity != s.quantity then 1 else 0)
  }

  /**
   * As the service is written, one transaction can put its copy back twice:
   * return it, set it back to BORROW (which takes no copy), return it again.
   * The book ends with two copies although only one was ever lent.
   */
  lemma RevertedReturnRestocksTwice()
    ensures var s := Store(map["b" := 0], map["t" := Transaction("u", "b", Borrow, None, "d", None)]);
            var giveBack := Patch(UpdateRequest(None, None, Some(Return), None, None, None), false);
            var lendAgain := Patch(UpdateRequest(None, None, Some(Borrow), None, None, None), false);
            var r := Patched(s, "t", [giveBack, lendAgain, giveBack], false);
            r.1 == 2 && r.0.quantity["b"] == 2
  {
    var s := Store(map["b" := 0], map["t" := Transaction("u", "b", Borrow, None, "d", None)]);
    var giveBack := Patch(UpdateRequest(None, None, Some(Return), None, None, None), false);
    var lendAgain := Patch(UpdateRequest(None, None, Some(Borrow), None, None, None), false);
    var s1 := Update(s, "t", giveBack.req, false).after;
    assert s1.quantity["b"] == 1 && s1.transactions["t"].status == Return;
    var s2 := Update(s1, "t", lendAgain.req, false).after;
    assert s2.quantity == s1.quantity && s2.transactions["t"].status == Borrow;
    var s3 := Update(s2, "t", giveBack.req, false).after;
    assert s3.quantity["b"] == 2;
    assert [giveBack][1..] == [];
    assert Patched(s2, "t", [giveBack], false) == (s3, 1);
    assert [lendAgain, giveBack][1..] == [giveBack];
    assert Patched(s1, "t", [lendAgain, giveBack], false) == (s3, 1);
    assert [giveBack, lendAgain, giveBack][1..] == [lendAgain, giveBack];
    assert Patched(s, "t", [giveBack, lendAgain, giveBack], false) == (s3, 2);
  }

  /**
   * The update the ledger needs: a returned transaction cannot be put back on
   * loan, and a refused call writes nothing. Otherwise it agrees with `Update`.
   */
  function UpdateGuarded(s: Store, id: TransactionId, req: UpdateRequest, storeConflict: bool): (o: Outcome)
    ensures o.result.Err? ==> o.after == s
    ensures o.result.Ok? ==> o == Update(s, id, req, storeConflict)
    // the one call it refuses that the original accepts: sending a returned transaction back on loan
    ensures id in s.transactions && s.transactions[id].status == Return && req.status == Some(Borrow) ==>
              o == Outcome(Err(Conflict), s)
    ensures !(id in s.transactions && s.transactions[id].status == Return && req.status == Some(Borrow)) ==>
              o.result == Update(s, id, req, storeConflict).result
    // a returned transaction stays returned and never puts a copy back
    ensures id in s.transactions && s.transactions[id].status == Return ==>
              && o.after.quantity == s.quantity
              && id in o.after.transactions
              && o.after.transactions[id].status == Return
    ensures NonNegative(s) ==> NonNegative(o.after)
  {
    if id in s.transactions && s.transactions[id].status == Return && req.status == Some(Borrow) then
      Outcome(Err(Conflict), s)
    else
      var o := Update(s, id, req, storeConflict);
      if o.result.Err? then Outcome(o.result, s)
      else
        assert o.result.value.status == req.status.GetOr(s.transactions[id].status);
        o
  }

  /** With the guarded update, every transaction puts its copy back at most once, and only if it was on loan. */
  lemma {:induction false} GuardedReturnRestocksAtMostOnce(s: Store, id: TransactionId, patches: seq<Patch>)
    requires id in s.transactions
    ensures Patched(s, id, patches, true).1 <= if s.transactions[id].status == Borrow then 1 else 0
    decreases |patches|
  {
    if patches != [] {
      var p := patches[0];
      var o := UpdateGuarded(s, id, p.req, p.storeConflict);
      assert id in o.after.transactions;
      if o.after.quantity != s.quantity {
        assert s.transactions[id].status == Borrow;
        assert o.result.Ok? && p.req.status == Some(Return);
        assert o.after.transactions[id].status == Return;
      }
      GuardedReturnRestocksAtMostOnce(o.after, id, patches[1..]);
    }
  }
}

=== FILE: reservations.dfy ===
/**
 * The reservations service: it moves a room through free, reserved and in use
 * as reservations are created and updated. Its two stores are fields that each
 * method updates in place; every method is proved to have exactly the effect
 * the functions of the Rooms module describe.
 */
module Reservations {
  import opened Wrappers
  import opened Rooms

  class ReservationsService {
    /** The room store, reduced to each room's status. */
    var status: map<RoomId, RoomStatus>
    /** The reservation store. */
    var reservations: map<ReservationId, Reservation>

    /** Both stores, as one value. */
    function State(): Store
      reads this
    {
      Store(status, reservations)
    }

    constructor (rooms: map<RoomId, RoomStatus>, records: map<ReservationId, Reservation>)
      ensures status == rooms && reservations == records
    {
      status := rooms;
      reservations := records;
    }

    /** Creates a reservation; `id` is the identifier the store issues and `now` the time of the call. */
    method Create(req: CreateRequest, id: ReservationId, now: Date) returns (r: Result<Reservation, Error>)
      requires id !in reservations
      modifies this
      ensures Outcome(r, State()) == Rooms.Create(old(State()), req, id, now)
      ensures Moves(old(status), status)
    {
      if req.room !in status {
        return Err(NotFound);
      }
      var current := status[req.room];
      var next: RoomStatus;
      match req.kind {
        case ReserveType =>
          if current != Free {
            return Err(BadRequest);
          }
          next := Reserved;
        case ReturnType =>
          if current != Reserved && current != InUse {
            return Err(BadRequest);
          }
          next := Free;
        case InUseType =>
          if current != Reserved {
            return Err(BadRequest);
          }
          next := InUse;
      }
      // the room is saved before the record; the store then refuses a record without a due time
      status := status[req.room := next];
      if req.dueTime.None? {
        return Err(ValidationFailed);
      }
      var reservation := NewReservation(req, now);
      reservations := reservations[id := reservation];
      return Ok(reservation);
    }

    /** Updates a reservation; the room whose status it drives is the one the request body names. */
    method Update(id: ReservationId, req: UpdateRequest) returns (r: Result<Reservation, Error>)
      modifies this
      ensures Outcome(r, State()) == Rooms.Update(old(State()), id, req)
      ensures Moves(old(status), status)
    {
      if id !in reservations {
        return Err(NotFound);
      }
      if req.room.None? || req.room.value !in status {
        return Err(NotFound);
      }
      var room := req.room.value;
      var next := status[room];
      if req.kind == Some(ReturnType) {
        if next != Reserved && next != InUse {
          return Err(BadRequest);
        }
        next := Free;
      } else if req.kind == Some(InUseType) {
        if next != Reserved {
          return Err(BadRequest);
        }
        next := InUse;
      }
      status := status[room := next];
      var updated := Merge(reservations[id], req);
      reservations := reservations[id := updated];
      return Ok(updated);
    }

    /** Deletes a reservation record; no room is touched. */
    method Remove(id: ReservationId) returns (r: Result<Reservation, Error>)
      modifies this
      ensures Outcome(r, State()) == Rooms.Remove(old(State()), id)
      ensures status == old(status)
    {
      if id !in reservations {
        return Err(NotFound);
      }
      r := Ok(reservations[id]);
      reservations := reservations - {id};
    }
  }
}

=== FILE: room_timeslot_table.dfy ===
/**
 * The data behind the admin room-timeslot table: the records are grouped by
 * room, the rooms are ordered by room number, and each (room, timeslot) cell
 * shows the status of the room's first record for that timeslot, or "-".
 */
module RoomTimeSlotTable {
  import opened Wrappers

  /** A room as the table sees it: its identifier and its room number. */
  datatype Room = Room(id: string, number: int)

  datatype Timeslot = Timeslot(id: string, start: string, end: string)

  /** The status of one room in one timeslot; the record's timeslot may be missing. */
  datatype RoomTimeSlot = RoomTimeSlot(room: Room, timeSlot: Option<Timeslot>, status: string)

  // ---------------------------------------------------------------------------
  // Grouping by room

  /** The records of one room, in the order of the input. */
  function RecordsOf(records: seq<RoomTimeSlot>, roomId: string): seq<RoomTimeSlot>
    decreases |records|
  {
    if records == [] then []
    else (if records[0].room.id == roomId then [records[0]] else []) + RecordsOf(records[1..], roomId)
  }

  /** Every record lands in its own room's bucket, exactly as often as it occurs, and in no other. */
  lemma {:induction false} RecordsOfPartitions(records: seq<RoomTimeSlot>, roomId: string, x: RoomTimeSlot)
    ensures multiset(RecordsOf(records, roomId))[x] == if x.room.id == roomId then multiset(records)[x] else 0
    decreases |records|
  {
    if records != [] {
      assert records == [records[0]] + records[1..];
      RecordsOfPartitions(records[1..], roomId, x);
    }
  }

  /**
   * Bucketing keeps the input order: the records of a prefix of the input come
   * before those of the rest, in every bucket.
   */
  lemma {:induction false} RecordsOfConcat(front: seq<RoomTimeSlot>, back: seq<RoomTimeSlot>, roomId: string)
    ensures RecordsOf(front + back, roomId) == RecordsOf(front, roomId) + RecordsOf(back, roomId)
    decreases |front|
  {
    if front == [] {
      assert front + back == back;
    } else {
      var head := if front[0].room.id == roomId then [front[0]] else [];
      assert (front + back)[0] == front[0];
      assert (front + back)[1..] == front[1..] + back;
      assert RecordsOf(front + back, roomId) == head + RecordsOf(front[1..] + back, roomId);
      assert RecordsOf(front, roomId) == head + RecordsOf(front[1..], roomId);
      RecordsOfConcat(front[1..], back, roomId);
    }
  }

  /** A room's bucket: its records, or none when no record names it. */
  function BucketOf(buckets: map<string, seq<RoomTimeSlot>>, roomId: string): seq<RoomTimeSlot> {
    if roomId in buckets then buckets[roomId] else []
  }

  /** Appending a record to its room's bucket extends that room's records by it, and no other room's. */
  lemma AppendToBucket(buckets: map<string, seq<RoomTimeSlot>>, prefix: seq<RoomTimeSlot>, slot: RoomTimeSlot, id: string)
    requires forall roomId :: BucketOf(buckets, roomId) == RecordsOf(prefix, roomId)
    ensures BucketOf(buckets[slot.room.id := BucketOf(buckets, slot.room.id) + [slot]], id) == RecordsOf(prefix + [slot], id)
  {
    RecordsOfConcat(prefix, [slot], id);
    assert [slot][1..] == [];
  }

  /**
   * Groups the records by the identifier of their room, one pass over the
   * input, appending each record to its room's bucket.
   */
  method GroupByRoom(records: seq<RoomTimeSlot>) returns (buckets: map<string, seq<RoomTimeSlot>>)
    ensures buckets.Keys == set k | 0 <= k < |records| :: records[k].room.id
    ensures forall roomId :: BucketOf(buckets, roomId) == RecordsOf(records, roomId)
  {
    buckets := map[];
    for i := 0 to |records|
      invariant buckets.Keys == set k | 0 <= k < i :: records[k].room.id
      invariant forall roomId :: BucketOf(buckets, roomId) == RecordsOf(records[..i], roomId)
    {
      var slot := records[i];
      var roomId := slot.room.id;
      ghost var before := buckets;
      if roomId !in buckets {
        buckets := buckets[roomId := []];
      }
      buckets := buckets[roomId := buckets[roomId] + [slot]];
      assert buckets == before[roomId := BucketOf(before, roomId) + [slot]];
      assert records[..i + 1] == records[..i] + [slot];
      forall id
        ensures BucketOf(buckets, id) == RecordsOf(records[..i + 1], id)
      {
        AppendToBucket(before, records[..i], slot, id);
      }
      assert (set k | 0 <= k < i + 1 :: records[k].room.id) == (set k | 0 <= k < i :: records[k].room.id) + {roomId};
    }
    assert records[..|records|] == records;
  }

  // ---------------------------------------------------------------------------
  // Ordering the rooms

  /** Ascending by room number, the order the comparator `a.room - b.room` asks for. */
  predicate SortedByNumber(rooms: seq<Room>) {
    forall i, j :: 0 <= i < j < |rooms| ==> rooms[i].number <= rooms[j].number
  }

  /** The rooms with room number n, in their order. */
  function Numbered(rooms: seq<Room>, n: int): seq<Room>
    decreases |rooms|
  {
    if rooms == [] then []
    else (if rooms[0].number == n then [rooms[0]] else []) + Numbered(rooms[1..], n)
  }

  /** A room no larger than the head of an ordered sequence can go in front of it. */
  lemma SortedCons(room: Room, sorted: seq<Room>)
    requires SortedByNumber(sorted)
    requires sorted != [] ==> room.number <= sorted[0].number
    ensures SortedByNumber([room] + sorted)
  {
    var out := [room] + sorted;
    forall i, j | 0 <= i < j < |out| ensures out[i].number <= out[j].number {
      if i == 0 {
        assert out[j] == sorted[j - 1];
        assert sorted[0].number <= sorted[j - 1].number || j == 1;
      } else {
        assert out[i] == sorted[i - 1] && out[j] == sorted[j - 1];
      }
    }
  }

  /** Dropping the first room of an ordered sequence leaves it ordered. */
  lemma SortedTail(sorted: seq<Room>)
    requires SortedByNumber(sorted) && sorted != []
    ensures SortedByNumber(sorted[1..])
  {
    var tail := sorted[1..];
    forall i, j | 0 <= i < j < |tail| ensures tail[i].number <= tail[j].number {
      assert tail[i] == sorted[i + 1] && tail[j] == sorted[j + 1];
    }
  }

  /** Puts a room into an ordered sequence, before the rooms with the same or a larger number. */
  function Insert(room: Room, sorted: seq<Room>): (out: seq<Room>)
    requires SortedByNumber(sorted)
    ensures |out| == |sorted| + 1
    ensures out[0] == room || (sorted != [] && out[0] == sorted[0])
    ensures SortedByNumber(out)
    ensures multiset(out) == multiset(sorted) + multiset{room}
    decreases |sorted|
  {
    if sorted == [] || room.number <= sorted[0].number then
      SortedCons(room, sorted);
      [room] + sorted
    else
      var tail := sorted[1..];
      SortedTail(sorted);
      var rest := Insert(room, tail);
      assert sorted[0].number <= rest[0].number by {
        if rest[0] != room {
          assert rest[0] == tail[0] == sorted[1];
        }
      }
      SortedCons(sorted[0], rest);
      assert sorted == [sorted[0]] + tail;
      assert multiset(sorted) == multiset{sorted[0]} + multiset(tail);
      assert multiset([sorted[0]] + rest) == multiset{sorted[0]} + multiset(rest);
      [sorted[0]] + rest
  }

  /** Insertion is stable: the new room goes ahead of the rooms that share its number. */
  lemma {:induction false} InsertNumbered(room: Room, sorted: seq<Room>, n: int)
    requires SortedByNumber(sorted)
    ensures Numbered(Insert(room, sorted), n) == if room.number == n then [room] + Numbered(sorted, n) else Numbered(sorted, n)
    decreases |sorted|
  {
    if sorted == [] || room.number <= sorted[0].number {
      assert ([room] + sorted)[1..] == sorted;
    } else {
      var rest := Insert(room, sorted[1..]);
      InsertNumbered(room, sorted[1..], n);
      assert ([sorted[0]] + rest)[1..] == rest;
    }
  }

  /**
   * The table's row order: a sorted copy of the rooms. Equal room numbers keep
   * their input order, as the stable sort of the platform does.
   */
  function SortRooms(rooms: seq<Room>): (sorted: seq<Room>)
    ensures |sorted| == |rooms|
    ensures SortedByNumber(sorted)
    ensures multiset(sorted) == multiset(rooms)
    ensures forall n :: Numbered(sorted, n) == Numbered(rooms, n)
    decreases |rooms|
  {
    if rooms == [] then []
    else
      assert rooms == [rooms[0]] + rooms[1..];
      var rest := SortRooms(rooms[1..]);
      assert forall n :: Numbered(Insert(rooms[0], rest), n) == Numbered(rooms, n) by {
        forall n ensures Numbered(Insert(rooms[0], rest), n) == Numbered(rooms, n) {
          InsertNumbered(rooms[0], rest, n);
        }
      }
      Insert(rooms[0], rest)
  }

  // ---------------------------------------------------------------------------
  // Resolving a cell

  /** A record belongs in a timeslot's column when its own timeslot has the same start and end. */
  predicate InColumn(slot: RoomTimeSlot, column: Timeslot) {
    slot.timeSlot.Some? && slot.timeSlot.value.start == column.start && slot.timeSlot.value.end == column.end
  }

  /** The position of the first record that belongs in the column, or |slots| when none does. */
  function FirstInColumn(slots: seq<RoomTimeSlot>, column: Timeslot): (k: nat)
    ensures k <= |slots|
    ensures k < |slots| ==> InColumn(slots[k], column)
    ensures forall j :: 0 <= j < k ==> !InColumn(slots[j], column)
    decreases |slots|
  {
    if slots == [] then 0
    else if InColumn(slots[0], column) then 0
    else 1 + FirstInColumn(slots[1..], column)
  }

  /** The record a cell resolves to: the first of the room's records that belongs in the column. */
  function Find(slots: seq<RoomTimeSlot>, column: Timeslot): Option<RoomTimeSlot> {
    var k := FirstInColumn(slots, column);
    if k < |slots| then Some(slots[k]) else None
  }

  /** What a cell shows: the status of the record it resolved to, or "-" when there is none. */
  function CellText(found: Option<RoomTimeSlot>): string {
    if found.Some? && found.value.status != "" then found.value.status else "-"
  }

  /**
   * Clicking a cell: the record handed to the edit dialog. A cell that resolved
   * to no record does nothing, and a cell that did edits the record it shows.
   */
  function EditTarget(slots: seq<RoomTimeSlot>, column: Timeslot): (edit: Option<RoomTimeSlot>)
    ensures edit.None? <==> forall k :: 0 <= k < |slots| ==> !InColumn(slots[k], column)
    ensures edit.None? ==> CellText(Find(slots, column)) == "-"
    ensures edit.Some? ==>
              && edit.value in slots
              && InColumn(edit.value, column)
              && CellText(Find(slots, column)) == (if edit.value.status == "" then "-" else edit.value.status)
    // the record edited is the first one in the column, the one the cell shows
    ensures edit.Some? ==> FirstInColumn(slots, column) < |slots| && edit.value == slots[FirstInColumn(slots, column)]
  {
    Find(slots, column)
  }

  /** One row of the table: what the room's bucket shows in each timeslot's column. */
  function Row(records: seq<RoomTimeSlot>, roomId: string, timeSlots: seq<Timeslot>): seq<string> {
    var bucket := RecordsOf(records, roomId);
    seq(|timeSlots|, j requires 0 <= j < |timeSlots| => CellText(Find(bucket, timeSlots[j])))
  }

  /** The table: one row per room in room-number order, one column per timeslot. */
  function Grid(records: seq<RoomTimeSlot>, rooms: seq<Room>, timeSlots: seq<Timeslot>): (grid: seq<seq<string>>)
    ensures |grid| == |rooms|
    ensures forall i :: 0 <= i < |grid| ==> |grid[i]| == |timeSlots|
  {
    var sorted := SortRooms(rooms);
    seq(|sorted|, i requires 0 <= i < |sorted| => Row(records, sorted[i].id, timeSlots))
  }

  /** A record shown in the cell of room `roomId` and column `column`. */
  predicate InCell(slot: RoomTimeSlot, roomId: string, column: Timeslot) {
    slot.room.id == roomId && InColumn(slot, column)
  }

  /** Looking a column up in a sequence: its first record is taken when it fits, and passed over otherwise. */
  lemma FindCons(x: RoomTimeSlot, rest: seq<RoomTimeSlot>, column: Timeslot)
    ensures Find([x] + rest, column) == if InColumn(x, column) then Some(x) else Find(rest, column)
  {
    var slots := [x] + rest;
    assert slots[0] == x && slots[1..] == rest;
    if !InColumn(x, column) {
      var k := FirstInColumn(rest, column);
      assert FirstInColumn(slots, column) == 1 + k;
      if k < |rest| {
        assert slots[1 + k] == rest[k];
      }
    }
  }

  /** One step of the bucket lookup: the first record either is the room's and in the column, or is passed over. */
  lemma FindStep(records: seq<RoomTimeSlot>, roomId: string, column: Timeslot)
    requires records != []
    ensures Find(RecordsOf(records, roomId), column) ==
            if InCell(records[0], roomId, column) then Some(records[0]) else Find(RecordsOf(records[1..], roomId), column)
  {
    var rest := RecordsOf(records[1..], roomId);
    if records[0].room.id == roomId {
      assert RecordsOf(records, roomId) == [records[0]] + rest;
      FindCons(records[0], rest, column);
    } else {
      assert RecordsOf(records, roomId) == rest;
    }
  }

  /** A cell's lookup finds nothing exactly when no record of the input belongs in that cell. */
  lemma {:induction false} CellHasNoRecord(records: seq<RoomTimeSlot>, roomId: string, column: Timeslot)
    ensures Find(RecordsOf(records, roomId), column).None? <==>
            forall m :: 0 <= m < |records| ==> !InCell(records[m], roomId, column)
    decreases |records|
  {
    if records != [] {
      var rest := records[1..];
      CellHasNoRecord(rest, roomId, column);
      FindStep(records, roomId, column);
      assert forall m :: 1 <= m < |records| ==> records[m] == rest[m - 1];
    }
  }

  /** A cell's lookup finds the first record of the input that belongs in that cell. */
  lemma {:induction false} CellFindsFirst(records: seq<RoomTimeSlot>, roomId: string, column: Timeslot, m: nat)
    requires m < |records| && InCell(records[m], roomId, column)
    requires forall j :: 0 <= j < m ==> !InCell(records[j], roomId, column)
    ensures Find(RecordsOf(records, roomId), column) == Some(records[m])
    decreases m
  {
    FindStep(records, roomId, column);
    if m > 0 {
      var rest := records[1..];
      assert !InCell(records[0], roomId, column);
      assert rest[m - 1] == records[m];
      assert forall j :: 0 <= j < m - 1 ==> rest[j] == records[j + 1];
      CellFindsFirst(rest, roomId, column, m - 1);
    }
  }

  /**
   * Looking a cell up in the room's bucket finds the first record of the whole
   * input that belongs in that cell, and finds none when no record does.
   */
  lemma CellResolvesToFirstRecordOfCell(records: seq<RoomTimeSlot>, roomId: string, column: Timeslot)
    ensures Find(RecordsOf(records, roomId), column).None? <==>
            forall m :: 0 <= m < |records| ==> !InCell(records[m], roomId, column)
    ensures forall m :: 0 <= m < |records| && InCell(records[m], roomId, column) &&
                        (forall j :: 0 <= j < m ==> !InCell(records[j], roomId, column)) ==>
                          Find(RecordsOf(records, roomId), column) == Some(records[m])
  {
    CellHasNoRecord(records, roomId, column);
    forall m | 0 <= m < |records| && InCell(records[m], roomId, column) &&
               (forall j :: 0 <= j < m ==> !InCell(records[j], roomId, column))
      ensures Find(RecordsOf(records, roomId), column) == Some(records[m])
    {
      CellFindsFirst(records, roomId, column, m);
    }
  }

  /** Row i of the table is the row of the i-th room in room-number order. */
  lemma GridRow(records: seq<RoomTimeSlot>, rooms: seq<Room>, timeSlots: seq<Timeslot>, i: nat)
    requires i < |rooms|
    ensures i < |SortRooms(rooms)|
    ensures Grid(records, rooms, timeSlots)[i] == Row(records, SortRooms(rooms)[i].id, timeSlots)
  {
  }

  /** In a room's row, a column none of the room's records fits shows "-". */
  lemma RowShowsDash(records: seq<RoomTimeSlot>, roomId: string, timeSlots: seq<Timeslot>, j: nat)
    requires j < |timeSlots|
    requires forall k :: 0 <= k < |records| ==> !InCell(records[k], roomId, timeSlots[j])
    ensures Row(records, roomId, timeSlots)[j] == "-"
  {
    CellHasNoRecord(records, roomId, timeSlots[j]);
    assert Find(RecordsOf(records, roomId), timeSlots[j]) == None;
  }

  /** In a room's row, a column shows the status of the room's first record that fits it, or "-". */
  lemma RowShowsFirstRecord(records: seq<RoomTimeSlot>, roomId: string, timeSlots: seq<Timeslot>, j: nat, m: nat)
    requires j < |timeSlots| && m < |records|
    requires InCell(records[m], roomId, timeSlots[j])
    requires forall k :: 0 <= k < m ==> !InCell(records[k], roomId, timeSlots[j])
    ensures Row(records, roomId, timeSlots)[j] == if records[m].status == "" then "-" else records[m].status
  {
    CellFindsFirst(records, roomId, timeSlots[j], m);
    assert Find(RecordsOf(records, roomId), timeSlots[j]) == Some(records[m]);
  }

  /** A room without records gets an empty bucket, so every cell of its row shows "-". */
  lemma RoomWithoutRecordsShowsDashes(records: seq<RoomTimeSlot>, rooms: seq<Room>, timeSlots: seq<Timeslot>, i: nat)
    requires i < |rooms|
    requires forall k :: 0 <= k < |records| ==> records[k].room.id != SortRooms(rooms)[i].id
    ensures forall j :: 0 <= j < |timeSlots| ==> Grid(records, rooms, timeSlots)[i][j] == "-"
  {
    GridRow(records, rooms, timeSlots, i);
    var roomId := SortRooms(rooms)[i].id;
    forall j | 0 <= j < |timeSlots| ensures Row(records, roomId, timeSlots)[j] == "-" {
      RowShowsDash(records, roomId, timeSlots, j);
    }
  }

  /** A cell that none of its room's records fits shows "-", whatever the room's other records are. */
  lemma GridShowsDashWhenNoRecordFits(records: seq<RoomTimeSlot>, rooms: seq<Room>, timeSlots: seq<Timeslot>, i: nat, j: nat)
    requires i < |rooms| && j < |timeSlots|
    requires forall k :: 0 <= k < |records| ==> !InCell(records[k], SortRooms(rooms)[i].id, timeSlots[j])
    ensures Grid(records, rooms, timeSlots)[i][j] == "-"
  {
    GridRow(records, rooms, timeSlots, i);
    RowShowsDash(records, SortRooms(rooms)[i].id, timeSlots, j);
  }

  /** Each cell of the table shows the status of the first record of its room and timeslot, or "-". */
  lemma GridShowsFirstRecordOfCell(records: seq<RoomTimeSlot>, rooms: seq<Room>, timeSlots: seq<Timeslot>, i: nat, j: nat, m: nat)
    requires i < |rooms| && j < |timeSlots| && m < |records|
    requires InCell(records[m], SortRooms(rooms)[i].id, timeSlots[j])
    requires forall k :: 0 <= k < m ==> !InCell(records[k], SortRooms(rooms)[i].id, timeSlots[j])
    ensures Grid(records, rooms, timeSlots)[i][j] == if records[m].status == "" then "-" else records[m].status
  {
    GridRow(records, rooms, timeSlots, i);
    RowShowsFirstRecord(records, SortRooms(rooms)[i].id, timeSlots, j, m);
  }
}

=== FILE: rooms.dfy ===
/**
 * The room status state machine of the reservations service, as values: each
 * room's status, the reservation records, and the effect of each call of the
 * service on them. The service class in reservations.dfy is proved to have
 * exactly these effects.
 */
module Rooms {
  import opened Wrappers

  type RoomId = string
  type ReservationId = string
  type UserId = string
  /** A date is carried through unchanged; nothing here computes with it. */
  type Date = string

  /** A room's status: "free", "reserved" or "in use". */
  datatype RoomStatus = Free | Reserved | InUse

  /** A reservation's type: "reserve", "return" or "in use"; input validation admits no other. */
  datatype ReservationType = ReserveType | ReturnType | InUseType

  /**
   * The exceptions a call ends with: the two the service raises (HTTP 400 and
   * 404), and the store's refusal of a record that lacks a required field.
   */
  datatype Error = BadRequest | NotFound | ValidationFailed

  /** A reservation record; `kind` is the record's `type` field. */
  datatype Reservation = Reservation(
    room: RoomId,
    user: UserId,
    kind: ReservationType,
    dueTime: Option<Date>,
    reserveTime: Option<Date>,
    returnTime: Option<Date>)

  /** The body of a create request; the request may leave the dates out. */
  datatype CreateRequest = CreateRequest(
    room: RoomId,
    user: UserId,
    kind: ReservationType,
    dueTime: Option<Date>,
    reserveTime: Option<Date>,
    returnTime: Option<Date>)

  /**
   * The body of an update request. `None` is a field the body leaves out (or a
   * room sent as null); a date can also be sent as an explicit null, `Some(None)`.
   */
  datatype UpdateRequest = UpdateRequest(
    room: Option<RoomId>,
    user: Option<UserId>,
    kind: Option<ReservationType>,
    dueTime: Option<Option<Date>>,
    reserveTime: Option<Option<Date>>,
    returnTime: Option<Option<Date>>)

  /** The persisted state the service reads and writes: room statuses and reservation records. */
  datatype Store = Store(status: map<RoomId, RoomStatus>, reservations: map<ReservationId, Reservation>)

  /** What a call returns or raises, and the store after it. */
  datatype Outcome = Outcome(result: Result<Reservation, Error>, after: Store)

  // ---------------------------------------------------------------------------
  // The state machine and the guards

  /** The transitions a room may take: free -> reserved -> in use, and reserved or in use -> free. */
  predicate Allowed(from: RoomStatus, to: RoomStatus) {
    || (from == Free && to == Reserved)
    || (from == Reserved && to == InUse)
    || (from != Free && to == Free)
  }

  /** The status a reservation type asks for. */
  function Target(kind: ReservationType): RoomStatus {
    match kind
    case ReserveType => Reserved
    case ReturnType => Free
    case InUseType => InUse
  }

  /** Every room keeps its status or takes one allowed transition, and no room appears or disappears. */
  ghost predicate Moves(before: map<RoomId, RoomStatus>, after: map<RoomId, RoomStatus>) {
    && after.Keys == before.Keys
    && forall r :: r in before ==> after[r] == before[r] || Allowed(before[r], after[r])
  }

  /** The guard of create: the status the room moves to, or None when its status refuses the request. */
  function Transition(current: RoomStatus, kind: ReservationType): (next: Option<RoomStatus>)
    ensures next == if Allowed(current, Target(kind)) then Some(Target(kind)) else None
  {
    match kind
    case ReserveType => if current == Free then Some(Reserved) else None
    case ReturnType => if current == Reserved || current == InUse then Some(Free) else None
    case InUseType => if current == Reserved then Some(InUse) else None
  }

  /** The guards admit exactly the transitions of the state machine, and only those. */
  lemma GuardsAdmitExactlyTheStateMachine(from: RoomStatus, to: RoomStatus)
    ensures Allowed(from, to) <==> exists kind :: Transition(from, kind) == Some(to)
  {
    if Allowed(from, to) {
      var kind := match to case Reserved => ReserveType case InUse => InUseType case Free => ReturnType;
      assert Transition(from, kind) == Some(to);
    }
  }

  /**
   * The guard of update: "return" and "in use" are checked as in create; any
   * other type, or none, leaves the room as it is.
   */
  function UpdateTransition(current: RoomStatus, kind: Option<ReservationType>): (next: Option<RoomStatus>)
    ensures kind == Some(ReturnType) || kind == Some(InUseType) ==> next == Transition(current, kind.value)
    ensures kind.None? || kind == Some(ReserveType) ==> next == Some(current)
  {
    if kind == Some(ReturnType) then
      if current == Reserved || current == InUse then Some(Free) else None
    else if kind == Some(InUseType) then
      if current == Reserved then Some(InUse) else None
    else Some(current)
  }

  // ---------------------------------------------------------------------------
  // The calls

  /** The record the store creates from a request: the reserve time defaults to the time of the call. */
  function NewReservation(req: CreateRequest, now: Date): Reservation {
    Reservation(req.room, req.user, req.kind, req.dueTime, Some(req.reserveTime.GetOr(now)), req.returnTime)
  }

  /**
   * Creating a reservation. `id` is the identifier the store gives the new
   * record, and `now` the time of the call. The room is saved before the
   * record, and the store refuses a record without a due time.
   */
  function Create(s: Store, req: CreateRequest, id: ReservationId, now: Date): (o: Outcome)
    requires id !in s.reservations
    ensures req.room !in s.status ==> o == Outcome(Err(NotFound), s)
    ensures req.room in s.status && !Allowed(s.status[req.room], Target(req.kind)) ==>
              o == Outcome(Err(BadRequest), s)
    ensures o.result.Ok? <==>
              req.room in s.status && Allowed(s.status[req.room], Target(req.kind)) && req.dueTime.Some?
    ensures o.result.Ok? ==>
              && o.result.value.room == req.room
              && o.result.value.kind == req.kind
              && o.result.value.user == req.user
              && o.result.value.dueTime == req.dueTime
              && o.result.value.reserveTime == Some(req.reserveTime.GetOr(now))
              && o.result.value.returnTime == req.returnTime
              && o.result.value == NewReservation(req, now)
              && o.after.reservations == s.reservations[id := o.result.value]
              && |o.after.reservations| == |s.reservations| + 1
              && o.after.status == s.status[req.room := Target(req.kind)]
    // whatever the outcome, at most the named room moves, and only along the state machine
    ensures Moves(s.status, o.after.status)
    ensures o.after.status == s.status || o.after.status == s.status[req.room := Target(req.kind)]
    // the store's refusal comes after the room was saved
    ensures (&& req.room in s.status
             && Allowed(s.status[req.room], Target(req.kind))
             && req.dueTime.None?) ==>
              o == Outcome(Err(ValidationFailed), Store(s.status[req.room := Target(req.kind)], s.reservations))
    ensures o.result == Err(ValidationFailed) ==>
              o.after == Store(s.status[req.room := Target(req.kind)], s.reservations)
  {
    if req.room !in s.status then Outcome(Err(NotFound), s)
    else
      match Transition(s.status[req.room], req.kind)
      case None => Outcome(Err(BadRequest), s)
      case Some(next) =>
        var status := s.status[req.room := next];
        if req.dueTime.None? then Outcome(Err(ValidationFailed), Store(status, s.reservations))
        else
          var r := NewReservation(req, now);
          Outcome(Ok(r), Store(status, s.reservations[id := r]))
  }

  /** The record after a partial update: each field the request gives replaces the stored one. */
  function Merge(r: Reservation, req: UpdateRequest): Reservation {
    Reservation(
      req.room.GetOr(r.room),
      req.user.GetOr(r.user),
      req.kind.GetOr(r.kind),
      req.dueTime.GetOr(r.dueTime),
      req.reserveTime.GetOr(r.reserveTime),
      req.returnTime.GetOr(r.returnTime))
  }

  /** Updating a reservation: the room is named by the request body, not by the stored record. */
  function Update(s: Store, id: ReservationId, req: UpdateRequest): (o: Outcome)
    ensures id !in s.reservations ==> o == Outcome(Err(NotFound), s)
    ensures req.room.None? || req.room.value !in s.status ==> o == Outcome(Err(NotFound), s)
    ensures o.result.Err? ==> o.after == s
    // a return or in-use move the room's status does not admit
    ensures (&& id in s.reservations
             && req.room.Some? && req.room.value in s.status
             && UpdateTransition(s.status[req.room.value], req.kind).None?) ==>
              o == Outcome(Err(BadRequest), s)
    ensures o.result.Ok? <==>
              && id in s.reservations
              && req.room.Some? && req.room.value in s.status
              && UpdateTransition(s.status[req.room.value], req.kind).Some?
    ensures o.result.Ok? ==>
              var room := req.room.value;
              && o.after.status == s.status[room := UpdateTransition(s.status[room], req.kind).value]
              && o.result.value == Merge(s.reservations[id], req)
              && o.result.value.room == room
              && o.after.reservations == s.reservations[id := o.result.value]
    ensures Moves(s.status, o.after.status)
  {
    if id !in s.reservations then Outcome(Err(NotFound), s)
    else if req.room.None? || req.room.value !in s.status then Outcome(Err(NotFound), s)
    else
      var room := req.room.value;
      match UpdateTransition(s.status[room], req.kind)
      case None => Outcome(Err(BadRequest), s)
      case Some(next) =>
        var r := Merge(s.reservations[id], req);
        Outcome(Ok(r), Store(s.status[room := next], s.reservations[id := r]))
  }

  /** Deleting a reservation record; no room is touched. */
  function Remove(s: Store, id: ReservationId): (o: Outcome)
    ensures o.after.status == s.status
    ensures o.result.Ok? <==> id in s.reservations
    ensures o.result.Ok? ==>
              o.result.value == s.reservations[id] && o.after.reservations == s.reservations - {id}
    ensures o.result.Err? ==> o == Outcome(Err(NotFound), s)
  {
    if id in s.reservations then Outcome(Ok(s.reservations[id]), Store(s.status, s.reservations - {id}))
    else Outcome(Err(NotFound), s)
  }

  /** A reserved room cannot be reserved again: the second request is refused and changes nothing. */
  lemma NoDoubleReservation(s: Store, first: CreateRequest, second: CreateRequest, id1: ReservationId, id2: ReservationId, now: Date)
    requires id1 !in s.reservations && id2 !in s.reservations && id1 != id2
    requires first.kind == ReserveType && second.kind == ReserveType && first.room == second.room
    ensures var o1 := Create(s, first, id1, now);
            o1.result.Ok? ==> Create(o1.after, second, id2, now) == Outcome(Err(BadRequest), o1.after)
  {
  }

  // ---------------------------------------------------------------------------
  // Sequences of calls

  datatype Call =
    | CreateCall(req: CreateRequest, id: ReservationId, now: Date)
    | UpdateCall(id: ReservationId, patch: UpdateRequest)
    | RemoveCall(id: ReservationId)

  /** One call; the store never issues an identifier it already holds, so such a create is no call at all. */
  function Step(s: Store, c: Call): (next: Store)
    ensures Moves(s.status, next.status)
  {
    match c
    case CreateCall(req, id, now) => if id in s.reservations then s else Create(s, req, id, now).after
    case UpdateCall(id, req) => Update(s, id, req).after
    case RemoveCall(id) => Remove(s, id).after
  }

  /** Each status follows the one before it, or takes one allowed transition. */
  ghost predicate Path(h: seq<RoomStatus>) {
    forall i :: 0 <= i < |h| - 1 ==> h[i + 1] == h[i] || Allowed(h[i], h[i + 1])
  }

  /** The statuses one room goes through during a sequence of calls, starting with its status before them. */
  function History(s: Store, calls: seq<Call>, room: RoomId): (h: seq<RoomStatus>)
    requires room in s.status
    ensures |h| == |calls| + 1 && h[0] == s.status[room]
    ensures Path(h)
    decreases |calls|
  {
    if calls == [] then [s.status[room]]
    else
      var next := Step(s, calls[0]);
      var rest := History(next, calls[1..], room);
      assert rest[0] == next.status[room];
      [s.status[room]] + rest
  }

  /** A room that is free cannot get to in use without being reserved in between. */
  lemma {:induction false} NoShortcutToInUse(h: seq<RoomStatus>)
    requires Path(h) && |h| > 0 && h[0] == Free && h[|h| - 1] == InUse
    ensures exists i :: 0 < i < |h| - 1 && h[i] == Reserved
    decreases |h|
  {
    assert |h| > 1;
    assert h[1] == Free || h[1] == Reserved;
    if h[1] == Free {
      NoShortcutToInUse(h[1..]);
      var i :| 0 < i < |h| - 2 && h[1..][i] == Reserved;
      assert h[i + 1] == Reserved;
    } else {
      assert 1 < |h| - 1;
    }
  }

  /** Whatever calls are made, a free room reaches in use only by way of reserved. */
  lemma RoomReachesInUseOnlyThroughReserved(s: Store, calls: seq<Call>, room: RoomId)
    requires room in s.status && s.status[room] == Free
    requires History(s, calls, room)[|calls|] == InUse
    ensures exists i :: 0 < i < |calls| && History(s, calls, room)[i] == Reserved
  {
    NoShortcutToInUse(History(s, calls, room));
  }

  // ---------------------------------------------------------------------------
  // A create without a due time

  /**
   * As the service is written, a "reserve" request without a due time moves
   * the room to reserved and then fails: the room stays reserved and no
   * reservation records it.
   */
  lemma MissingDueTimeStrandsRoom(s: Store, req: CreateRequest, id: ReservationId, now: Date)
    requires id !in s.reservations
    requires req.room in s.status && s.status[req.room] == Free
    requires req.kind == ReserveType && req.dueTime.None?
    ensures var o := Create(s, req, id, now);
            && o.result == Err(ValidationFailed)
            && o.after.status[req.room] == Reserved
            && o.after.reservations == s.reservations
  {
  }

  /**
   * Create as it should behave: the missing due time is refused before
   * anything is saved. A refused call then writes nothing, and a room moves
   * only when a reservation is recorded with it.
   */
  function CreateValidated(s: Store, req: CreateRequest, id: ReservationId, now: Date): (o: Outcome)
    requires id !in s.reservations
    ensures o.result.Err? ==> o.after == s
    ensures o.result.Ok? ==> o == Create(s, req, id, now)
    // a missing due time is refused up front; otherwise it is the original call
    ensures req.dueTime.None? ==> o == Outcome(Err(BadRequest), s)
    ensures req.dueTime.Some? ==> o == Create(s, req, id, now)
    ensures o.after.status != s.status ==>
              && o.result.Ok?
              && o.after.status == s.status[req.room := Target(req.kind)]
              && o.after.reservations == s.reservations[id := o.result.value]
              && o.result.value.room == req.room
              && o.result.value.kind == req.kind
  {
    if req.dueTime.None? then Outcome(Err(BadRequest), s) else Create(s, req, id, now)
  }
}

=== FILE: transactions.dfy ===
/**
 * The transactions service: it lends and takes back books, keeping each
 * book's quantity in step with the borrow/return records. Its two stores are
 * fields that each method updates in place; every method is proved to have
 * exactly the effect the ledger functions describe.
 */
module Transactions {
  import opened Wrappers
  import opened Ledger

  class TransactionsService {
    /** The book store, reduced to each book's loanable-copy count. */
    var quantity: map<BookId, int>
    /** The transaction store. */
    var transactions: map<TransactionId, Transaction>

    /** Both stores, as one value. */
    function State(): Store
      reads this
    {
      Store(quantity, transactions)
    }

    constructor (books: map<BookId, int>, records: map<TransactionId, Transaction>)
      ensures quantity == books && transactions == records
    {
      quantity := books;
      transactions := records;
    }

    /** Borrows a book; `id` is the identifier the store issues and `now` the time of the call. */
    method Create(req: CreateRequest, id: TransactionId, now: Date) returns (r: Result<Transaction, Error>)
      requires id !in transactions
      modifies this
      ensures Outcome(r, State()) == Ledger.Create(old(State()), req, id, now)
      ensures old(NonNegative(State())) ==> NonNegative(State())
    {
      if req.status != Borrow {
        return Err(BadRequest);
      }
      if req.book !in quantity {
        return Err(NotFound);
      }
      var book := quantity[req.book];
      if book <= 0 {
        return Err(Conflict);
      }
      quantity := quantity[req.book := book - 1];
      var t := NewRecord(req, now);
      transactions := transactions[id := t];
      return Ok(t);
    }

    /**
     * Updates a transaction; `storeConflict` is true when the store refuses the
     * final write with a duplicate-key error.
     */
    method Update(id: TransactionId, req: UpdateRequest, storeConflict: bool) returns (r: Result<Transaction, Error>)
      modifies this
      ensures Outcome(r, State()) == Ledger.Update(old(State()), id, req, storeConflict)
      ensures old(NonNegative(State())) ==> NonNegative(State())
    {
      if req.status == Some(Borrow) && req.returnDate.Some? && req.returnDate.value.Some? {
        return Err(Conflict);
      }
      if id !in transactions {
        return Err(NotFound);
      }
      var current := transactions[id];
      if req.status == Some(Return) && current.status == Borrow {
        if current.book !in quantity {
          return Err(NotFound);
        }
        // the book is saved first, so a refused write below leaves it incremented
        quantity := quantity[current.book := quantity[current.book] + 1];
      }
      if storeConflict {
        return Err(Conflict);
      }
      var updated := Merge(current, req);
      transactions := transactions[id := updated];
      return Ok(updated);
    }

    /** Deletes a transaction record; no book is touched. */
    method Remove(id: TransactionId) returns (r: Result<Transaction, Error>)
      modifies this
      ensures Outcome(r, State()) == Ledger.Remove(old(State()), id)
      ensures quantity == old(quantity)
    {
      if id !in transactions {
        return Err(NotFound);
      }
      r := Ok(transactions[id]);
      transactions := transactions - {id};
    }
  }
}

=== FILE: wrappers.dfy ===
/** Optional values and success-or-error results, shared by every module. */
module Wrappers {

  datatype Option<+T> = None | Some(value: T) {
    /** The value when present, `default` otherwise. */
    function GetOr(default: T): T {
      match this
      case Some(v) => v
      case None => default
    }
  }

  datatype Result<+T, +E> = Ok(value: T) | Err(error: E)
}
